=== FILE: README.md ===
# Rental lifecycle of the rentapi vehicle-rental backend, in Dafny

This project models the core of a FastAPI/SQLAlchemy backend where users
list vehicles ("transports": cars, bikes, scooters) and other users rent
them by the minute or by the day. It covers:

- the rent state machine in `services.py`: viewing a rent (`find_rent`),
  creating one (`create_rent_request`), with its pricing and scheduled end,
  ending one (`end_rent`), and the two history views;
- the public availability listing in `routers/rent.py` (rentable transports,
  optionally inside a planar circle and of one type);
- in `routers/transport.py`, the public fetch of one transport, which
  checks only that it exists, and the existence and ownership guards on
  the owner's edit and delete;
- the admin transport listing with its type filter and offset/limit paging,
  and the admin overwrite and removal of a rent, in `routers/admin.py`.

The two tables are maps from primary key to record (`Domain.Store`), with a
counter standing for the key the rent table hands out next. Every operation
is a pure function. Those that write return the answer together with the
new store. On every failure they return the store they were given, so
"all checks happen before any write" is part of each contract. Queries take
the table's rows as a sequence, because the source's queries have no
`ORDER BY`. `TransportRows` and `RentRows` state when such a sequence lists
a table. The clock reading `now` is an `Instant`: whole microseconds since
0001-01-01 00:00:00, below the end of year 9999, the range and resolution of
a Python `datetime`. Stored start and end times are whole seconds
(`StoredSeconds` drops the microseconds, as the `%Y-%m-%d %H:%M:%S` format
does), and `AsInstant` reads a stored time back as the instant it names. A
minute is 60 seconds and a day is 86400. Prices and coordinates are
reals. The clock reading and the caller (`Principal`) are parameters.

Files: `outcomes.dfy` (errors with their HTTP status, `Result`, `Option`),
`seqs.dfy` (order-preserving filter and its lemmas), `domain.dfy` (records,
store, constants, well-formedness), `policy.dfy` (renter/owner/admin
capabilities), `pricing.dfy`, `ledger.dfy` (the rent state machine),
`lifecycle.dfy` (properties across several calls), `availability.dfy`,
`catalog.dfy`, `admin.dfy`.

## Behaviour worth noting

Each of these is what the code does, and the model does the same:

- A transport that is already rented is refused with HTTP 404 and the
  detail "Transport is rented". Renting one's own transport is refused with
  HTTP 400.
- `duration` is never checked to be positive. A negative duration gives a
  scheduled end before the start and a negative price. Such a rent can
  never be ended (`Lifecycle.NegativeDurationCannotEnd`).
- A scheduled end outside the years 1 to 9999 makes the date arithmetic
  raise, so the create call fails with 500 before anything is written.
- The end check compares the microsecond clock with an end time stored
  to the second. A rent ended at an instant that is not a whole second
  cannot be ended again at that same instant (`Lifecycle.EndRepeatedAtSameInstant`).
- On the admin path, which names the renter explicitly, there is no owner
  check at all. Even the owner may be named as the renter.
- main.py mounts only the account, transport and rent routers (main.py:19-21).
  As the application is wired, nothing in `routers/admin.py` is reachable:
  not the admin listing, not the create on behalf of a named renter, and not
  the rent overwrite or removal. The model describes these handlers as
  written.
- `find_rent` has no admin exception. Only the renter and the transport's
  owner may view a rent (`Lifecycle.ViewIgnoresAdminFlag`).
- `end_rent` on a rent whose transport no longer exists fails with an
  unhandled exception (500) before anything is committed.
- Under the query's evident meaning (see "Left out"),
  `transport_rent_history` refuses a caller who does not own the
  transport. It also refuses an owner whose transport has no rents, because
  it tests the list for emptiness.

## Model

| member | source | states |
|---|---|---|
| Pricing.QuoteRent | services.py:184-193 | Minutes: the unit price is the minute price and the final price is the minute price times the duration. Days: the unit price is the day price and the final price is the day price times the duration times 84. The length is the duration in minutes or days. Any other rent type fails with "Invalid rent type". |
| Pricing.QuoteIsAdditive | services.py:184-193 | For a valid rent type, the unit price does not depend on the duration, and the final price and the scheduled length of a duration d1+d2 are the sums of those for d1 and for d2. |
| Pricing.QuoteExamples | services.py:184-191 | Worked prices: 10 per minute for 5 minutes is 50; 100 per day for 2 days is 16800; 2 per minute for 30 minutes is 60. |
| Ledger.FindRent | services.py:152-161 | A missing rent gives not-found. Otherwise the rent is returned exactly when the caller is its renter or owns its transport, and every other caller gets forbidden (403). |
| Ledger.CreateRent | services.py:163-202 | Checks come in order: missing transport is not-found; a transport that is not rentable is "rented"; a standard caller who owns it is refused; a bad rent type is refused. It succeeds exactly when all checks pass. When the scheduled end lies outside the years 1 to 9999, the call fails with a server error (500). On success the rent gets the next key and the effective renter. Its start is now cut to the second. Its price and end follow the Minutes/Days formulas. It is scheduled to end no earlier than it starts exactly when the duration is not negative. The transport becomes unrentable. Nothing else changes. A standard rent's renter is never the owner. On failure the store is unchanged. Well-formedness is preserved. |
| Ledger.EndRent | services.py:216-242 | Missing rent is not-found. A caller who is neither admin nor renter is forbidden. A call at an instant after the stored end second is refused. When the rent's transport no longer exists, the call fails with a server error (500). It succeeds exactly when all checks pass and the transport exists. On success only the rent's endTime changes, to now cut to the second, which never increases it. The transport is at the drop-off point and rentable, with no other field changed, and no other rent or transport changes. On failure the store is unchanged. |
| Ledger.UserRentHistory | services.py:204-206 | Lists exactly the rows whose renter is the caller. |
| Ledger.TransportRentHistory | services.py:208-214 | A non-owner is always refused. For the owner it succeeds exactly when some row is a rent of that transport, and then it lists exactly those rows. |
| Lifecycle.NoDoubleBooking | services.py:169-170 | After a successful create, any second create on the same transport is refused as rented and leaves the store unchanged. |
| Lifecycle.RentThenReturn | services.py:231-236 | Create followed by an in-time end by the renter or an admin restores the transport table to its original state, except for the drop-off coordinates. The rent is stored with its actual end, cut to the second. |
| Lifecycle.NegativeDurationCannotEnd | services.py:184-229 | A rent created with a negative duration can be ended at no instant from its start on. |
| Lifecycle.EndedRentStaysEnded | services.py:228-231 | Once a rent is ended at some instant, any end call at a later instant is refused and changes nothing. |
| Lifecycle.EndRepeatedAtSameInstant | services.py:226-231 | Repeating a successful end call at the same clock reading succeeds exactly when the reading is a whole second. Otherwise it is refused as ended, with the store unchanged. When it succeeds it returns the same answer and the same store. |
| Lifecycle.OutsiderIsRefused | services.py:152-224 | A caller who is not admin, not the renter and not the owner is refused both viewing and ending a rent, and the store is unchanged. |
| Lifecycle.OwnerMayViewButNotEnd | services.py:152-224 | A transport's owner who is neither admin nor renter may view its rent but not end it. |
| Lifecycle.ViewIgnoresAdminFlag | services.py:158-159 | The answer to viewing a rent is the same whether or not the caller is an admin. |
| Lifecycle.AdminMayEndAnyRent | services.py:222-236 | An admin ends any existing rent before its scheduled end, whoever the renter is. |
| Lifecycle.UserHistoryMatchesTable | services.py:204-206 | Read from a listing of the rent table, the caller's history is exactly the stored rents booked for the caller. |
| Lifecycle.TransportHistoryMatchesTable | services.py:208-214 | A successful transport history is exactly the stored rents of that transport. |
| Availability.AvailableTransport | routers/rent.py:12-29 | Every listed transport is rentable. A transport is listed exactly when it is a row that is rentable, passes the circle test when all three circle parameters are given, and has the given type when one is given. |
| Availability.AvailableIsOnePass | routers/rent.py:19-28 | The staged query equals a single order-preserving pass with the reference definition `Listed`. |
| Availability.LocationIgnoredUnlessComplete | routers/rent.py:21-23 | Without all of latitude, longitude and radius, the position parameters do not affect the answer. |
| Availability.RadiusSignIrrelevant | routers/rent.py:22-23 | Only the squared radius matters, so a radius and its negation give the same listing. |
| Availability.BoundaryIsListed | routers/rent.py:22-23 | A rentable transport of the wanted type lying anywhere exactly on the circle is listed, because the boundary is included. |
| Availability.EmptyWhenNothingMatches | routers/rent.py:28-29 | The answer is the empty sequence exactly when no row qualifies. It is never an error. |
| Availability.AvailableMatchesTable | routers/rent.py:19-29 | Read from a listing of the transport table, the answer is exactly the stored transports that qualify. |
| Catalog.GetTransport | routers/transport.py:12-16 | Returns the stored transport exactly when the id exists, and not-found (404) otherwise. |
| Catalog.UpdateTransport | routers/transport.py:27-35 | A missing id is not-found before ownership is considered. A non-owner is forbidden. A bad type or an identifier held by another transport is refused. On failure the store is unchanged. On success every editable field takes the submitted value, id and owner are kept, and only that transport changes. Identifier uniqueness and well-formedness are preserved. |
| Catalog.DeleteTransport | routers/transport.py:38-47 | A missing id is not-found. A non-owner is forbidden, and the store is unchanged. Only the owner's call removes exactly that transport and reports one row removed. Rents are untouched. |
| Catalog.EditThenFetch | routers/transport.py:12-35 | Fetching a transport right after a successful edit returns the edited record. |
| Catalog.DeleteThenFetch | routers/transport.py:12-47 | After a successful delete that transport is not-found, and every other transport fetches as before. |
| Catalog.OwnerEditReopensRentedTransport | services.py:123 | An owner's edit can mark a rented transport rentable again while its rent remains. Exclusivity therefore rests on the rent endpoints alone. |
| Admin.OfType | routers/admin.py:49-50 | With "All" the rows are returned unfiltered. With any other value, exactly the rows of that type are returned. |
| Admin.Page | routers/admin.py:52 | Skips `start` items and takes at most `count`. The result length is min(count, remaining) and item i is item start+i. |
| Admin.AllTransport | routers/admin.py:46-54 | At most `count` transports, all from the table. With a type other than "All", every one has that type. The length is min(count, selected - start) and item i is item start+i of the type selection, for every type. With "All" it is the plain page of the rows. |
| Admin.PagesConcatenate | routers/admin.py:52 | A page of a items followed by the next page of b items equals the page of a+b items. |
| Admin.WholePage | routers/admin.py:52-53 | Paging from 0 with a count of at least the table size returns every row. |
| Admin.FullListingIsTypeSelection | routers/admin.py:46-54 | A listing from 0 with a count of at least the table size is the whole type selection, in table order. |
| Admin.UpdateRent | routers/admin.py:113-130 | A rent type outside {Minutes, Days} is refused before the rent is looked at. A missing rent is also refused, both with 400 and with the store unchanged. On success all seven fields take the submitted values verbatim, the id is kept, no price is recomputed, and transports are untouched. |
| Admin.DeleteRent | routers/admin.py:133-141 | A missing rent is not-found with the store unchanged. Otherwise exactly that rent is removed and returned, and transports are untouched, so a running rent's transport stays rented. |
| Admin.OverwriteThenView | routers/admin.py:117-124 | After an overwrite, the renter it names sees exactly the submitted values, including a final price that no quote would produce. |
| Admin.DeleteThenFind | routers/admin.py:134-141 | Once a rent is removed, viewing it gives not-found to every caller. |

## Left out

- Credentials: token encoding and decoding, password hashing, and the `get_current_user` dependency (services.py:13-90) are cryptography and library calls. The caller is a resolved `Principal`.
- The route dependencies in routers/user.py are out of scope. They refuse disabled users on user routes and non-admins on admin routes. Admin operations are modelled for admin callers without the gate.
- The database session, `commit`/`refresh` and the ORM declarations are replaced by maps. One call is one atomic step. The concurrent double-booking race is out of scope; exclusivity is proved per call.
- Database-level foreign keys are not modelled. A rent may name a transport that has been deleted.
- Catalog creation (`create_transport_request`), user accounts, balance top-up (routers/payment.py), application wiring (main.py) and admin seeding (admin.py) carry no rental invariant.
- Float arithmetic of prices and coordinates is modelled with reals, without rounding.
- Nullable `minutePrice`/`dayPrice` are not modelled. A null price would make pricing fail with an unhandled exception; the request schema always supplies both prices.
- Stored times are whole seconds, not the formatted strings. For years before 1000, `strftime` may write a year without leading zeros that `strptime` later refuses. The model reads every stored time back.
- models.py:52-62 declares no `priceOfUnit` or `finalPrice` column on `Rent`, and models.py:7-16 declares no `isAdmin` on `User`. The code in services.py and routers/admin.py reads and writes these fields, so the model keeps them on `Rent` and `Principal`. How the database would treat the missing columns is not modelled.
- Ledger.EndRent: an `endTime` written by an admin overwrite is a number here. In the source it is a string that may fail to parse, which ends the call with an unhandled exception.
- Ledger.UserRentHistory: it calls `FindRent.get_rent_by_user_id`, which models.py does not define, so as written the call would fail with an attribute error. The model gives the query its evident meaning, the rents booked by the caller, read from the table's rows in storage order.
- Ledger.TransportRentHistory: it calls `FindRent.get_rent_by_transport_id_and_user_id`, which models.py does not define, so as written the call would fail with an attribute error. The model gives the query its evident meaning, the rents of a transport owned by the caller, read from the table's rows in storage order.
- Catalog.UpdateTransport: the trailing comma at services.py:124 stores a one-element tuple as `transportType`. What happens then depends on the database driver, and database.py is not part of this model. The model stores the string.
- Admin.AllTransport: `start` and `count` are naturals. What the database does with negative offsets or limits depends on the engine.
- Catalog.GetTransport and Catalog.UpdateTransport return the stored record. The handlers declare `response_model=TransportModel` (routers/transport.py:11 and :26), so the response is that schema's projection of the record, without `id` or owner. Response serialization is not modelled.
- The admin single-record fetches, which return null for a missing id, and the admin account and transport CRUD are outside the rental core.

=== FILE: admin.dfy ===
/** The admin endpoints around the rent core: the paginated transport
    listing, and the verbatim overwrite and removal of a rent. Callers are
    admins; the admin gate itself sits outside this model. */
module Admin {
  import opened Outcomes
  import opened Domain
  import opened Seqs
  import opened Policy
  import opened Ledger

  /** The type parameter value that means "no type filter". */
  const AllTypes: string := "All"

  /** The rows of one type, or all rows for `AllTypes`. */
  function OfType(rows: seq<Transport>, transportType: string): (r: seq<Transport>)
    ensures transportType == AllTypes ==> r == rows
    ensures transportType != AllTypes ==>
      forall t :: t in r <==> t in rows && t.transportType == transportType
  {
    if transportType != AllTypes
    then Filter(rows, (t: Transport) => t.transportType == transportType)
    else rows
  }

  function Min(a: int, b: int): int {
    if a <= b then a else b
  }

  /** Skip `start` items, then take at most `count`. */
  function Page<T>(xs: seq<T>, start: nat, count: nat): (r: seq<T>)
    ensures |r| <= count
    ensures |r| == Min(count, if start <= |xs| then |xs| - start else 0)
    ensures forall i | 0 <= i < |r| :: r[i] == xs[start + i]
  {
    var lo := Min(start, |xs|);
    var hi := Min(start + count, |xs|);
    xs[lo..hi]
  }

  /** The admin transport listing. */
  function AllTransport(rows: seq<Transport>, start: nat, count: nat, transportType: string)
    : (r: seq<Transport>)
    ensures |r| <= count
    ensures forall t | t in r :: t in rows
    ensures transportType != AllTypes ==> forall t | t in r :: t.transportType == transportType
    ensures transportType == AllTypes ==> r == Page(rows, start, count)
    ensures |r| == Min(count, if start <= |OfType(rows, transportType)|
                              then |OfType(rows, transportType)| - start else 0)
    ensures forall i | 0 <= i < |r| :: r[i] == OfType(rows, transportType)[start + i]
  {
    Page(OfType(rows, transportType), start, count)
  }

  /** Two consecutive pages make up the page that spans both. */
  lemma PagesConcatenate<T>(xs: seq<T>, start: nat, a: nat, b: nat)
    ensures Page(xs, start, a) + Page(xs, start + a, b) == Page(xs, start, a + b)
  {
  }

  /** Paging from 0 with a count of at least the length returns everything. */
  lemma WholePage<T>(xs: seq<T>, count: nat)
    requires count >= |xs|
    ensures Page(xs, 0, count) == xs
  {
  }

  /** A listing that starts at 0 and is long enough is the whole type
      selection, in table order. */
  lemma FullListingIsTypeSelection(rows: seq<Transport>, count: nat, transportType: string)
    requires count >= |rows|
    ensures AllTransport(rows, 0, count, transportType) == OfType(rows, transportType)
  {
  }

  /** The values an admin writes over a rent, all seven of them. */
  datatype RentData = RentData(
    rentType: string,
    transportId: int,
    renterId: int,
    startTime: int,
    endTime: int,
    priceOfUnit: real,
    finalPrice: real)

  /** The admin overwrite of rent `rentId`. The rent type is checked
      first; every failure inside the handler answers 400. On success all
      seven fields take the submitted values as they are: nothing is
      recomputed and the transport is not touched. */
  function UpdateRent(s: Store, rentId: int, data: RentData): (r: (Result<Rent>, Store))
    ensures r.0.Err? ==> r.1 == s && r.0.error.Status() == 400
    ensures !ValidRentType(data.rentType) ==> r.0 == Err(InvalidRentType)
    ensures ValidRentType(data.rentType) && rentId !in s.rents ==> r.0 == Err(RentUpdateFailed)
    ensures r.0.Ok? <==> ValidRentType(data.rentType) && rentId in s.rents
    ensures r.0.Ok? ==>
      var x := r.0.value;
      && x.id == s.rents[rentId].id
      && x.rentType == data.rentType
      && x.transportId == data.transportId
      && x.renterId == data.renterId
      && x.startTime == data.startTime
      && x.endTime == data.endTime
      && x.priceOfUnit == data.priceOfUnit
      && x.finalPrice == data.finalPrice
      && r.1 == s.(rents := s.rents[rentId := x])
    ensures WellFormed(s) ==> WellFormed(r.1)
  {
    if !ValidRentType(data.rentType) then (Err(InvalidRentType), s)
    else if rentId !in s.rents then (Err(RentUpdateFailed), s)
    else
      var x := s.rents[rentId].(rentType := data.rentType, transportId := data.transportId,
                                renterId := data.renterId, startTime := data.startTime,
                                endTime := data.endTime, priceOfUnit := data.priceOfUnit,
                                finalPrice := data.finalPrice);
      (Ok(x), s.(rents := s.rents[rentId := x]))
  }

  /** The admin removal of rent `rentId`. The transport it refers to keeps
      its state, so removing a running rent leaves the transport rented. */
  function DeleteRent(s: Store, rentId: int): (r: (Result<Rent>, Store))
    ensures rentId !in s.rents ==> r == (Err(RentalNotFound), s)
    ensures r.0.Ok? <==> rentId in s.rents
    ensures r.0.Ok? ==>
      && r.0.value == s.rents[rentId]
      && r.1.rents.Keys == s.rents.Keys - {rentId}
      && (forall k | k in r.1.rents :: r.1.rents[k] == s.rents[k])
      && r.1.transports == s.transports
      && r.1.nextRentId == s.nextRentId
    ensures WellFormed(s) ==> WellFormed(r.1)
  {
    if rentId !in s.rents then (Err(RentalNotFound), s)
    else (Ok(s.rents[rentId]), s.(rents := s.rents - {rentId}))
  }

  /** After an overwrite the renter it names sees exactly the submitted
      values, including a price no quote would produce. */
  lemma OverwriteThenView(s: Store, rentId: int, data: RentData)
    requires UpdateRent(s, rentId, data).0.Ok?
    ensures var (written, s1) := UpdateRent(s, rentId, data);
            && FindRent(s1, rentId, Principal(data.renterId, false)) == written
            && written.value.finalPrice == data.finalPrice
  {
  }

  /** A removed rent is gone for every caller. */
  lemma DeleteThenFind(s: Store, rentId: int, user: Principal)
    requires DeleteRent(s, rentId).0.Ok?
    ensures FindRent(DeleteRent(s, rentId).1, rentId, user) == Err(RentalNotFound)
  {
  }
}

=== FILE: availability.dfy ===
/** The public listing of transports that can be rented now, optionally
    narrowed to a circle around a point and to one transport type. The
    listing only reads: it takes the rows of the transport table, in the
    order the table yields them, and returns a selection of them. */
module Availability {
  import opened Outcomes
  import opened Domain
  import opened Seqs

  /** The optional query parameters of the listing. */
  datatype Query = Query(
    latitude: Option<real>,
    longitude: Option<real>,
    radius: Option<real>,
    transportType: Option<string>)

  /** The circle narrows the listing only when all three of its
      parameters are given. */
  predicate CircleApplies(q: Query) {
    q.latitude.Some? && q.longitude.Some? && q.radius.Some?
  }

  /** The planar circle test on coordinates: squared distance from the
      centre at most the squared radius, the boundary included. */
  predicate WithinCircle(t: Transport, latitude: real, longitude: real, radius: real) {
    (t.latitude - latitude) * (t.latitude - latitude)
      + (t.longitude - longitude) * (t.longitude - longitude) <= radius * radius
  }

  /** Reference definition: whether one transport belongs in the listing. */
  predicate Listed(t: Transport, q: Query) {
    && t.canBeRented
    && (CircleApplies(q) ==> WithinCircle(t, q.latitude.value, q.longitude.value, q.radius.value))
    && (q.transportType.Some? ==> t.transportType == q.transportType.value)
  }

  /** The listing, built as the backend builds its query: rentable rows
      first, then the circle when it applies, then the type when given. */
  function AvailableTransport(rows: seq<Transport>, q: Query): (r: seq<Transport>)
    ensures forall t | t in r :: t.canBeRented
    ensures forall t :: t in r <==> t in rows && Listed(t, q)
    ensures |r| <= |rows|
  {
    var rentable := Filter(rows, (t: Transport) => t.canBeRented);
    var located :=
      if CircleApplies(q)
      then Filter(rentable, (t: Transport) => WithinCircle(t, q.latitude.value, q.longitude.value, q.radius.value))
      else rentable;
    if q.transportType.Some?
    then Filter(located, (t: Transport) => t.transportType == q.transportType.value)
    else located
  }

  /** The staged query lists exactly what one pass with the reference
      definition lists, in the same order. */
  lemma AvailableIsOnePass(rows: seq<Transport>, q: Query)
    ensures AvailableTransport(rows, q) == Filter(rows, (t: Transport) => Listed(t, q))
  {
    var rentable := (t: Transport) => t.canBeRented;
    var rs := Filter(rows, rentable);
    var located :=
      if CircleApplies(q)
      then Filter(rs, (t: Transport) => WithinCircle(t, q.latitude.value, q.longitude.value, q.radius.value))
      else rs;
    CircleStage(rs, q);
    TypeStage(located, q);
    var near := (t: Transport) => NearEnough(t, q);
    var typed := (t: Transport) => OfWantedType(t, q);
    var both := (t: Transport) => t.canBeRented && NearEnough(t, q);
    assert AvailableTransport(rows, q) == Filter(Filter(Filter(rows, rentable), near), typed);
    FilterThenFilter(rows, rentable, near, both);
    FilterThenFilter(rows, both, typed, (t: Transport) => Listed(t, q));
  }

  predicate NearEnough(t: Transport, q: Query) {
    CircleApplies(q) ==> WithinCircle(t, q.latitude.value, q.longitude.value, q.radius.value)
  }

  predicate OfWantedType(t: Transport, q: Query) {
    q.transportType.Some? ==> t.transportType == q.transportType.value
  }

  /** The circle stage filters by `NearEnough`. */
  lemma CircleStage(rs: seq<Transport>, q: Query)
    ensures (if CircleApplies(q)
             then Filter(rs, (t: Transport) => WithinCircle(t, q.latitude.value, q.longitude.value, q.radius.value))
             else rs)
         == Filter(rs, (t: Transport) => NearEnough(t, q))
  {
    if CircleApplies(q) {
      FilterExtensional(rs, (t: Transport) => WithinCircle(t, q.latitude.value, q.longitude.value, q.radius.value),
                        (t: Transport) => NearEnough(t, q));
    } else {
      FilterKeepsAll(rs, (t: Transport) => NearEnough(t, q));
    }
  }

  /** The type stage filters by `OfWantedType`. */
  lemma TypeStage(xs: seq<Transport>, q: Query)
    ensures (if q.transportType.Some?
             then Filter(xs, (t: Transport) => t.transportType == q.transportType.value)
             else xs)
         == Filter(xs, (t: Transport) => OfWantedType(t, q))
  {
    if q.transportType.Some? {
      FilterExtensional(xs, (t: Transport) => t.transportType == q.transportType.value,
                        (t: Transport) => OfWantedType(t, q));
    } else {
      FilterKeepsAll(xs, (t: Transport) => OfWantedType(t, q));
    }
  }

  /** Without all three circle parameters the position plays no part. */
  lemma LocationIgnoredUnlessComplete(rows: seq<Transport>, q: Query)
    requires !CircleApplies(q)
    ensures AvailableTransport(rows, q)
         == AvailableTransport(rows, q.(latitude := None, longitude := None, radius := None))
  {
  }

  /** Only the square of the radius is compared, so a negative radius
      lists what its absolute value lists. */
  lemma RadiusSignIrrelevant(rows: seq<Transport>, q: Query, radius: real)
    ensures AvailableTransport(rows, q.(radius := Some(radius)))
         == AvailableTransport(rows, q.(radius := Some(-radius)))
  {
    var q1 := q.(radius := Some(radius));
    var q2 := q.(radius := Some(-radius));
    AvailableIsOnePass(rows, q1);
    AvailableIsOnePass(rows, q2);
    SquareOfNegation(radius);
    assert forall t: Transport :: Listed(t, q1) == Listed(t, q2);
    FilterExtensional(rows, (t: Transport) => Listed(t, q1), (t: Transport) => Listed(t, q2));
  }

  lemma SquareOfNegation(x: real)
    ensures (-x) * (-x) == x * x
  {
  }

  /** A rentable transport of the wanted type lying anywhere exactly on
      the circle is listed. */
  lemma BoundaryIsListed(rows: seq<Transport>, q: Query, t: Transport)
    requires CircleApplies(q)
    requires t in rows && t.canBeRented
    requires q.transportType.Some? ==> t.transportType == q.transportType.value
    requires (t.latitude - q.latitude.value) * (t.latitude - q.latitude.value)
           + (t.longitude - q.longitude.value) * (t.longitude - q.longitude.value)
          == q.radius.value * q.radius.value
    ensures t in AvailableTransport(rows, q)
  {
    assert Listed(t, q);
  }

  /** No listed transport means an empty answer, never a failure. */
  lemma EmptyWhenNothingMatches(rows: seq<Transport>, q: Query)
    ensures AvailableTransport(rows, q) == [] <==> forall i | 0 <= i < |rows| :: !Listed(rows[i], q)
  {
    var r := AvailableTransport(rows, q);
    if r != [] {
      assert r[0] in r;
    }
    if exists i | 0 <= i < |rows| :: Listed(rows[i], q) {
      var i :| 0 <= i < |rows| && Listed(rows[i], q);
      assert rows[i] in r;
    }
  }

  /** Read from a listing of the transport table, the answer is exactly
      the stored transports the reference definition lists. */
  lemma AvailableMatchesTable(rows: seq<Transport>, s: Store, q: Query)
    requires TransportRows(rows, s.transports)
    ensures forall t :: t in AvailableTransport(rows, q)
              <==> t.id in s.transports && s.transports[t.id] == t && Listed(t, q)
  {
    ListsAreTable(rows, s.transports, (t: Transport) => t.id);
  }
}

=== FILE: catalog.dfy ===
/** The transport endpoints: the public fetch of one transport, which
    checks only that it exists, and the existence and ownership guards in
    front of the owner's edit and delete. */
module Catalog {
  import opened Outcomes
  import opened Domain
  import opened Policy

  /** The editable fields an owner submits; the owner itself is not one. */
  datatype TransportData = TransportData(
    canBeRented: bool,
    transportType: string,
    model: string,
    color: string,
    identifier: string,
    description: string,
    latitude: real,
    longitude: real,
    minutePrice: real,
    dayPrice: real)

  /** Some other transport already carries `identifier`. */
  predicate IdentifierTaken(s: Store, id: int, identifier: string) {
    exists k | k in s.transports && k != id :: s.transports[k].identifier == identifier
  }

  /** No two stored transports share an identifier. */
  predicate UniqueIdentifiers(s: Store) {
    forall j, k | j in s.transports && k in s.transports && j != k ::
      s.transports[j].identifier != s.transports[k].identifier
  }

  function GetTransport(s: Store, id: int): (r: Result<Transport>)
    ensures r.Ok? <==> id in s.transports
    ensures r.Ok? ==> r.value == s.transports[id]
    ensures r.Err? ==> r.error == TransportNotFound && r.error.Status() == 404
  {
    if id in s.transports then Ok(s.transports[id]) else Err(TransportNotFound)
  }

  /** The owner's edit of transport `id`: not found comes before
      forbidden, and both come before the type check and the identifier
      constraint. On success every editable field is overwritten. */
  function UpdateTransport(s: Store, id: int, data: TransportData, user: Principal)
    : (r: (Result<Transport>, Store))
    ensures r.0.Err? ==> r.1 == s
    ensures id !in s.transports ==> r.0 == Err(TransportNotFound)
    ensures id in s.transports && !IsOwner(user, s.transports[id]) ==> r.0 == Err(EditForbidden)
    ensures id in s.transports && IsOwner(user, s.transports[id]) && !ValidTransportType(data.transportType) ==>
      r.0 == Err(InvalidTransportType)
    ensures (&& id in s.transports
             && IsOwner(user, s.transports[id])
             && ValidTransportType(data.transportType)
             && IdentifierTaken(s, id, data.identifier)) ==> r.0 == Err(DuplicateIdentifier)
    ensures r.0.Ok? <==>
      && id in s.transports
      && IsOwner(user, s.transports[id])
      && ValidTransportType(data.transportType)
      && !IdentifierTaken(s, id, data.identifier)
    ensures r.0.Ok? ==>
      var t := r.0.value;
      && t.id == s.transports[id].id
      && t.ownerId == s.transports[id].ownerId
      && t.canBeRented == data.canBeRented
      && t.transportType == data.transportType
      && t.model == data.model
      && t.color == data.color
      && t.identifier == data.identifier
      && t.description == data.description
      && t.latitude == data.latitude
      && t.longitude == data.longitude
      && t.minutePrice == data.minutePrice
      && t.dayPrice == data.dayPrice
      && r.1 == s.(transports := s.transports[id := t])
    ensures WellFormed(s) ==> WellFormed(r.1)
    ensures UniqueIdentifiers(s) ==> UniqueIdentifiers(r.1)
  {
    if id !in s.transports then (Err(TransportNotFound), s)
    else
      var current := s.transports[id];
      if !IsOwner(user, current) then (Err(EditForbidden), s)
      else if !ValidTransportType(data.transportType) then (Err(InvalidTransportType), s)
      else if IdentifierTaken(s, id, data.identifier) then (Err(DuplicateIdentifier), s)
      else
        var t := Transport(current.id, current.ownerId, data.canBeRented, data.transportType, data.model,
                           data.color, data.identifier, data.description, data.latitude,
                           data.longitude, data.minutePrice, data.dayPrice);
        (Ok(t), s.(transports := s.transports[id := t]))
  }

  /** The owner's delete of transport `id`; the answer is the number of
      rows removed. Rents of the transport stay where they are. */
  function DeleteTransport(s: Store, id: int, user: Principal): (r: (Result<int>, Store))
    ensures r.0.Err? ==> r.1 == s
    ensures id !in s.transports ==> r.0 == Err(TransportNotFound)
    ensures id in s.transports && !IsOwner(user, s.transports[id]) ==> r.0 == Err(EditForbidden)
    ensures r.0.Ok? <==> id in s.transports && IsOwner(user, s.transports[id])
    ensures r.0.Ok? ==>
      && r.0.value == 1
      && r.1.transports.Keys == s.transports.Keys - {id}
      && (forall k | k in r.1.transports :: r.1.transports[k] == s.transports[k])
      && r.1.rents == s.rents
      && r.1.nextRentId == s.nextRentId
    ensures WellFormed(s) ==> WellFormed(r.1)
  {
    if id !in s.transports then (Err(TransportNotFound), s)
    else if !IsOwner(user, s.transports[id]) then (Err(EditForbidden), s)
    else (Ok(1), s.(transports := s.transports - {id}))
  }

  /** An owner's edit may mark a rented transport rentable again while
      its rent stays in the rent table: exclusivity of a transport rests
      on the rent endpoints alone. */
  lemma OwnerEditReopensRentedTransport(s: Store, id: int, data: TransportData, user: Principal)
    requires id in s.transports && !s.transports[id].canBeRented
    requires IsOwner(user, s.transports[id])
    requires ValidTransportType(data.transportType) && !IdentifierTaken(s, id, data.identifier)
    requires data.canBeRented
    ensures var (res, s1) := UpdateTransport(s, id, data, user);
            && res.Ok?
            && s1.transports[id].canBeRented
            && s1.rents == s.rents
  {
  }

  /** Fetching a transport right after a successful edit returns the
      edited record. */
  lemma EditThenFetch(s: Store, id: int, data: TransportData, user: Principal)
    requires UpdateTransport(s, id, data, user).0.Ok?
    ensures var (edited, s1) := UpdateTransport(s, id, data, user);
            GetTransport(s1, id) == edited
  {
  }

  /** After a successful delete the transport can no longer be fetched,
      and every other transport still can. */
  lemma DeleteThenFetch(s: Store, id: int, user: Principal, other: int)
    requires DeleteTransport(s, id, user).0.Ok?
    requires other != id
    ensures var s1 := DeleteTransport(s, id, user).1;
            && GetTransport(s1, id) == Err(TransportNotFound)
            && GetTransport(s1, other) == GetTransport(s, other)
  {
  }
}

=== FILE: domain.dfy ===
/** The records the rental core reads and writes, and the two tables that
    hold them. The clock is read in microseconds since 0001-01-01 00:00:00,
    the range of the backend's date-time values; a stored timestamp has
    whole-second resolution and counts seconds from the same origin.
    Prices and coordinates are reals. */
module Domain {

  /** The authenticated caller, already resolved from its credential. */
  datatype Principal = Principal(id: int, isAdmin: bool)

  /** A vehicle offered for rent; `ownerId` is the owning user's id. */
  datatype Transport = Transport(
    id: int,
    ownerId: int,
    canBeRented: bool,
    transportType: string,
    model: string,
    color: string,
    identifier: string,
    description: string,
    latitude: real,
    longitude: real,
    minutePrice: real,
    dayPrice: real)

  /** One rental. `endTime` is the scheduled end while the rent runs and
      the actual end once it has been ended. */
  datatype Rent = Rent(
    id: int,
    rentType: string,
    transportId: int,
    renterId: int,
    startTime: int,
    endTime: int,
    priceOfUnit: real,
    finalPrice: real)

  /** Both tables, keyed by primary key, and the next key the rent table
      will hand out. */
  datatype Store = Store(
    transports: map<int, Transport>,
    rents: map<int, Rent>,
    nextRentId: int)

  const Minutes: string := "Minutes"
  const Days: string := "Days"
  const SecondsPerMinute: int := 60
  const SecondsPerDay: int := 86400
  const MicrosPerSecond: int := 1000000

  /** One past the last representable instant: 10000-01-01 00:00:00, that
      is 3652059 days after the origin, in microseconds. */
  const MaxInstant: int := 315537897600 * MicrosPerSecond

  /** A representable date-time, as the clock returns it. */
  type Instant = t: int | 0 <= t < MaxInstant

  /** Whether a date-time computed by adding to the clock is representable;
      outside this range the addition raises an overflow error. */
  predicate Representable(t: int) {
    0 <= t < MaxInstant
  }

  /** The stored form of an instant: formatting to seconds drops the
      microseconds. */
  function StoredSeconds(t: Instant): int {
    t / MicrosPerSecond
  }

  /** A stored timestamp, read back as an instant. */
  function AsInstant(seconds: int): int {
    seconds * MicrosPerSecond
  }

  /** The stored form of an instant is the last whole second at or before it. */
  lemma StoredSecondsBounds(t: Instant)
    ensures AsInstant(StoredSeconds(t)) <= t < AsInstant(StoredSeconds(t) + 1)
    ensures AsInstant(StoredSeconds(t)) == t <==> t % MicrosPerSecond == 0
  {
  }

  /** The rent types the backend accepts. */
  predicate ValidRentType(rentType: string) {
    rentType == Minutes || rentType == Days
  }

  /** The transport types the catalog accepts. */
  predicate ValidTransportType(transportType: string) {
    transportType == "Car" || transportType == "Bike" || transportType == "Scooter"
  }

  /** Every record is stored under its own id, and every rent key was
      handed out before the current counter value. */
  predicate WellFormed(s: Store) {
    && (forall k | k in s.transports :: s.transports[k].id == k)
    && (forall k | k in s.rents :: s.rents[k].id == k && k < s.nextRentId)
  }

  /** `rows` lists the table `m`, whose records carry their key as `key`:
      every row is stored under its key, every stored record is a row, and
      no key repeats. */
  predicate Lists<T(==)>(rows: seq<T>, m: map<int, T>, key: T -> int) {
    && (forall i | 0 <= i < |rows| :: key(rows[i]) in m && m[key(rows[i])] == rows[i])
    && (forall k | k in m :: m[k] in rows)
    && (forall i, j | 0 <= i < j < |rows| :: key(rows[i]) != key(rows[j]))
  }

  /** `rows` lists the transport table `m`. */
  predicate TransportRows(rows: seq<Transport>, m: map<int, Transport>) {
    Lists(rows, m, (t: Transport) => t.id)
  }

  /** `rows` lists the rent table `m`. */
  predicate RentRows(rows: seq<Rent>, m: map<int, Rent>) {
    Lists(rows, m, (x: Rent) => x.id)
  }

  /** A listing of a table holds exactly the records stored under their
      own keys. */
  lemma ListsAreTable<T(!new)>(rows: seq<T>, m: map<int, T>, key: T -> int)
    requires Lists(rows, m, key)
    ensures forall x :: x in rows <==> key(x) in m && m[key(x)] == x
  {
    forall x | x in rows
      ensures key(x) in m && m[key(x)] == x
    {
      var i :| 0 <= i < |rows| && rows[i] == x;
    }
    forall x | key(x) in m && m[key(x)] == x
      ensures x in rows
    {
      var k := key(x);
      assert k in m;
      assert m[k] in rows;
    }
  }
}

=== FILE: ledger.dfy ===
/** The rent state machine: viewing, creating and ending a rent, and the
    two history views. A transport moves between rentable and rented only
    here; every operation that can fail checks everything before it
    writes, so a failure hands back the store it was given. */
module Ledger {
  import opened Outcomes
  import opened Domain
  import opened Policy
  import opened Pricing
  import opened Seqs

  /** A request to create a rent. The standard request rents for the
      caller; the admin request names the renter explicitly. */
  datatype RentRequest =
    | Standard(rentType: string, transportId: int, duration: int)
    | OnBehalf(rentType: string, transportId: int, duration: int, renterId: int)

  /** The user the new rent is booked for. */
  function RenterOf(req: RentRequest, user: Principal): int {
    if req.OnBehalf? then req.renterId else user.id
  }

  /** A rent, shown only to its renter or to the owner of its transport;
      being an admin grants nothing here. */
  function FindRent(s: Store, rentId: int, user: Principal): (r: Result<Rent>)
    ensures rentId !in s.rents ==> r == Err(RentalNotFound)
    ensures r.Ok? ==> rentId in s.rents && r.value == s.rents[rentId]
    ensures rentId in s.rents ==>
      (r.Ok? <==> IsRenter(user, s.rents[rentId]) || OwnsTransportId(user, s.rents[rentId].transportId, s))
    ensures rentId in s.rents && r.Err? ==> r.error == ViewForbidden && r.error.Status() == 403
  {
    if rentId !in s.rents then Err(RentalNotFound)
    else
      var rent := s.rents[rentId];
      if !(IsRenter(user, rent) || OwnsTransportId(user, rent.transportId, s)) then Err(ViewForbidden)
      else Ok(rent)
  }

  /** The checks before pricing: the transport exists and is rentable,
      and a standard caller does not own it. */
  predicate MayBook(s: Store, req: RentRequest, user: Principal) {
    && req.transportId in s.transports
    && s.transports[req.transportId].canBeRented
    && (req.Standard? ==> !OwnsTransportId(user, req.transportId, s))
  }

  /** The scheduled end instant is a representable date-time. */
  predicate ScheduleFits(req: RentRequest, now: Instant) {
    && (req.rentType == Minutes ==> Representable(now + req.duration * SecondsPerMinute * MicrosPerSecond))
    && (req.rentType == Days ==> Representable(now + req.duration * SecondsPerDay * MicrosPerSecond))
  }

  /** Books transport `req.transportId` at instant `now`: the transport
      must exist and be rentable, a standard caller must not own it, and
      the rent type must be valid; a scheduled end outside the date-time
      range is an unhandled overflow. Then the rent is priced, stored
      under the next key, and the transport is marked rented. */
  function CreateRent(s: Store, req: RentRequest, user: Principal, now: Instant): (r: (Result<Rent>, Store))
    ensures r.0.Err? ==> r.1 == s
    ensures req.transportId !in s.transports ==> r.0 == Err(TransportNotFound)
    ensures req.transportId in s.transports && !s.transports[req.transportId].canBeRented ==>
      r.0 == Err(TransportRented)
    ensures (&& req.Standard?
             && req.transportId in s.transports
             && s.transports[req.transportId].canBeRented
             && OwnsTransportId(user, req.transportId, s)) ==> r.0 == Err(OwnTransport)
    ensures MayBook(s, req, user) && !ValidRentType(req.rentType) ==> r.0 == Err(InvalidRentType)
    ensures MayBook(s, req, user) && ValidRentType(req.rentType) && !ScheduleFits(req, now) ==>
      r.0 == Err(ServerError)
    ensures r.0.Ok? <==> MayBook(s, req, user) && ValidRentType(req.rentType) && ScheduleFits(req, now)
    ensures r.0.Ok? ==>
      var t := s.transports[req.transportId];
      var rent := r.0.value;
      && rent.id == s.nextRentId
      && rent.rentType == req.rentType
      && rent.transportId == req.transportId
      && rent.renterId == RenterOf(req, user)
      && rent.startTime == StoredSeconds(now)
      && (req.rentType == Minutes ==>
            && rent.priceOfUnit == t.minutePrice
            && rent.finalPrice == t.minutePrice * req.duration as real
            && rent.endTime == StoredSeconds(now) + req.duration * SecondsPerMinute)
      && (req.rentType == Days ==>
            && rent.priceOfUnit == t.dayPrice
            && rent.finalPrice == t.dayPrice * req.duration as real * 84.0
            && rent.endTime == StoredSeconds(now) + req.duration * SecondsPerDay)
    ensures r.0.Ok? ==> (r.0.value.startTime <= r.0.value.endTime <==> req.duration >= 0)
    ensures r.0.Ok? && req.Standard? ==> r.0.value.renterId != s.transports[req.transportId].ownerId
    ensures r.0.Ok? ==>
      && r.1.transports == s.transports[req.transportId := s.transports[req.transportId].(canBeRented := false)]
      && r.1.rents == s.rents[s.nextRentId := r.0.value]
      && r.1.nextRentId == s.nextRentId + 1
    ensures r.0.Ok? && WellFormed(s) ==> s.nextRentId !in s.rents
    ensures WellFormed(s) ==> WellFormed(r.1)
  {
    if req.transportId !in s.transports then (Err(TransportNotFound), s)
    else
      var t := s.transports[req.transportId];
      if !t.canBeRented then (Err(TransportRented), s)
      else if req.Standard? && OwnsTransportId(user, req.transportId, s) then (Err(OwnTransport), s)
      else match QuoteRent(t, req.rentType, req.duration)
        case Err(e) => (Err(e), s)
        case Ok(q) =>
          if !Representable(now + q.length * MicrosPerSecond) then (Err(ServerError), s)
          else
            var rent := Rent(s.nextRentId, req.rentType, req.transportId, RenterOf(req, user),
                             StoredSeconds(now), StoredSeconds(now) + q.length, q.priceOfUnit, q.finalPrice);
            (Ok(rent), Store(s.transports[req.transportId := t.(canBeRented := false)],
                             s.rents[rent.id := rent],
                             s.nextRentId + 1))
  }

  /** Ends rent `rentId` at instant `now`, leaving its transport at
      (`latitude`, `longitude`). Only an admin or the renter may end it,
      and only while `now` has not passed the stored `endTime`. The
      actual end is stored to the second. */
  function EndRent(s: Store, rentId: int, latitude: real, longitude: real, user: Principal, now: Instant)
    : (r: (Result<Rent>, Store))
    ensures r.0.Err? ==> r.1 == s
    ensures rentId !in s.rents ==> r.0 == Err(RentalNotFound)
    ensures rentId in s.rents && !CanEndRent(user, s.rents[rentId]) ==> r.0 == Err(EndForbidden)
    ensures rentId in s.rents && CanEndRent(user, s.rents[rentId]) && now > AsInstant(s.rents[rentId].endTime) ==>
      r.0 == Err(RentalEnded)
    ensures (&& rentId in s.rents
             && CanEndRent(user, s.rents[rentId])
             && now <= AsInstant(s.rents[rentId].endTime)
             && s.rents[rentId].transportId !in s.transports) ==> r.0 == Err(ServerError)
    ensures r.0.Ok? <==>
      && rentId in s.rents
      && CanEndRent(user, s.rents[rentId])
      && now <= AsInstant(s.rents[rentId].endTime)
      && s.rents[rentId].transportId in s.transports
    ensures r.0.Ok? ==>
      var before := s.rents[rentId];
      var tid := before.transportId;
      && r.0.value == before.(endTime := StoredSeconds(now))
      && r.0.value.endTime <= before.endTime
      && r.1.rents == s.rents[rentId := r.0.value]
      && r.1.nextRentId == s.nextRentId
      && r.1.transports.Keys == s.transports.Keys
      && r.1.transports[tid].canBeRented
      && r.1.transports[tid].latitude == latitude
      && r.1.transports[tid].longitude == longitude
      && r.1.transports[tid].(latitude := s.transports[tid].latitude,
                               longitude := s.transports[tid].longitude,
                               canBeRented := s.transports[tid].canBeRented) == s.transports[tid]
      && (forall k | k in s.transports && k != tid :: r.1.transports[k] == s.transports[k])
    ensures WellFormed(s) ==> WellFormed(r.1)
  {
    if rentId !in s.rents then (Err(RentalNotFound), s)
    else
      var rent := s.rents[rentId];
      if !CanEndRent(user, rent) then (Err(EndForbidden), s)
      else if now > AsInstant(rent.endTime) then (Err(RentalEnded), s)
      else if rent.transportId !in s.transports then (Err(ServerError), s)
      else
        var ended := rent.(endTime := StoredSeconds(now));
        var t := s.transports[rent.transportId];
        var returned := t.(latitude := latitude, longitude := longitude, canBeRented := true);
        (Ok(ended), Store(s.transports[rent.transportId := returned], s.rents[rentId := ended], s.nextRentId))
  }

  /** The caller's own rents. */
  function UserRentHistory(rows: seq<Rent>, user: Principal): (r: seq<Rent>)
    ensures forall x :: x in r <==> x in rows && IsRenter(user, x)
    ensures |r| <= |rows|
  {
    Filter(rows, (x: Rent) => IsRenter(user, x))
  }

  /** The rents of one transport, shown to its owner. A caller who does
      not own the transport, and an owner whose transport has never been
      rented, both get the same refusal. */
  function TransportRentHistory(s: Store, rows: seq<Rent>, transportId: int, user: Principal)
    : (r: Result<seq<Rent>>)
    ensures !OwnsTransportId(user, transportId, s) ==> r == Err(ForeignTransportHistory)
    ensures r.Err? ==> r.error == ForeignTransportHistory
    ensures r.Ok? ==>
      && OwnsTransportId(user, transportId, s)
      && |r.value| > 0
      && (forall x :: x in r.value <==> x in rows && x.transportId == transportId)
    ensures OwnsTransportId(user, transportId, s) ==>
      (r.Ok? <==> exists i | 0 <= i < |rows| :: rows[i].transportId == transportId)
  {
    var found := Filter(rows, (x: Rent) => x.transportId == transportId && OwnsTransportId(user, transportId, s));
    assert |found| > 0 ==> found[0] in found && OwnsTransportId(user, transportId, s);
    assert forall i | 0 <= i < |rows| && rows[i].transportId == transportId && OwnsTransportId(user, transportId, s)
      :: rows[i] in found;
    if |found| == 0 then Err(ForeignTransportHistory) else Ok(found)
  }
}

=== FILE: lifecycle.dfy ===
/** Properties of the rent state machine that relate several calls:
    exclusivity of a transport, the create/end round trip, the one-way
    closing of a rent, and who is kept out. */
module Lifecycle {
  import opened Outcomes
  import opened Domain
  import opened Policy
  import opened Ledger

  /** Once a create succeeds the transport is rented: a second create on
      it, by anyone at any instant, is refused and changes nothing. */
  lemma NoDoubleBooking(s: Store, first: RentRequest, second: RentRequest,
                        u1: Principal, u2: Principal, t1: Instant, t2: Instant)
    requires CreateRent(s, first, u1, t1).0.Ok?
    requires second.transportId == first.transportId
    ensures var s1 := CreateRent(s, first, u1, t1).1;
            CreateRent(s1, second, u2, t2) == (Err(TransportRented), s1)
  {
  }

  /** Creating a rent and ending it in time restores the transport table
      except for the drop-off position, and stores the rent with its
      actual end, to the second. */
  lemma RentThenReturn(s: Store, req: RentRequest, user: Principal, start: Instant,
                       ender: Principal, stop: Instant, latitude: real, longitude: real)
    requires CreateRent(s, req, user, start).0.Ok?
    requires CanEndRent(ender, CreateRent(s, req, user, start).0.value)
    requires stop <= AsInstant(CreateRent(s, req, user, start).0.value.endTime)
    ensures var (created, s1) := CreateRent(s, req, user, start);
            var (ended, s2) := EndRent(s1, created.value.id, latitude, longitude, ender, stop);
            && ended == Ok(created.value.(endTime := StoredSeconds(stop)))
            && s2.transports == s.transports[req.transportId :=
                 s.transports[req.transportId].(latitude := latitude, longitude := longitude)]
            && s2.rents == s.rents[created.value.id := ended.value]
  {
    var (created, s1) := CreateRent(s, req, user, start);
    var (ended, s2) := EndRent(s1, created.value.id, latitude, longitude, ender, stop);
    var tid := req.transportId;
    assert s1.rents[created.value.id] == created.value;
    assert s2.transports[tid] == s.transports[tid].(latitude := latitude, longitude := longitude);
  }

  /** A rent created with a negative duration is scheduled to end before
      it starts, so no call from its start on can end it. */
  lemma NegativeDurationCannotEnd(s: Store, req: RentRequest, user: Principal, start: Instant,
                                  ender: Principal, stop: Instant, latitude: real, longitude: real)
    requires CreateRent(s, req, user, start).0.Ok?
    requires req.duration < 0 && start <= stop
    requires CanEndRent(ender, CreateRent(s, req, user, start).0.value)
    ensures var (created, s1) := CreateRent(s, req, user, start);
            EndRent(s1, created.value.id, latitude, longitude, ender, stop) == (Err(RentalEnded), s1)
  {
    var (created, s1) := CreateRent(s, req, user, start);
    StoredSecondsBounds(start);
    assert created.value.endTime <= StoredSeconds(start) - 1;
    assert AsInstant(created.value.endTime) <= AsInstant(StoredSeconds(start)) - MicrosPerSecond;
    assert s1.rents[created.value.id] == created.value;
  }

  /** After a rent is ended at `now`, its stored end is `now` cut to the
      second, so an end call at any later instant is refused. */
  lemma EndedRentStaysEnded(s: Store, rentId: int, latitude: real, longitude: real, user: Principal,
                            now: Instant, latitude2: real, longitude2: real, user2: Principal, later: Instant)
    requires EndRent(s, rentId, latitude, longitude, user, now).0.Ok?
    requires now < later
    requires CanEndRent(user2, s.rents[rentId])
    ensures var s1 := EndRent(s, rentId, latitude, longitude, user, now).1;
            EndRent(s1, rentId, latitude2, longitude2, user2, later) == (Err(RentalEnded), s1)
  {
    StoredSecondsBounds(now);
  }

  /** Repeating a successful end call at the same clock reading is refused
      unless the reading falls exactly on a whole second, because the
      stored end has dropped the microseconds; when accepted, it changes
      nothing further. */
  lemma EndRepeatedAtSameInstant(s: Store, rentId: int, latitude: real, longitude: real,
                                 user: Principal, now: Instant)
    requires EndRent(s, rentId, latitude, longitude, user, now).0.Ok?
    ensures var (first, s1) := EndRent(s, rentId, latitude, longitude, user, now);
            && (EndRent(s1, rentId, latitude, longitude, user, now).0.Ok? <==> now % MicrosPerSecond == 0)
            && (now % MicrosPerSecond != 0 ==>
                  EndRent(s1, rentId, latitude, longitude, user, now) == (Err(RentalEnded), s1))
            && (now % MicrosPerSecond == 0 ==>
                  EndRent(s1, rentId, latitude, longitude, user, now) == (first, s1))
  {
    var (first, s1) := EndRent(s, rentId, latitude, longitude, user, now);
    StoredSecondsBounds(now);
    if now % MicrosPerSecond == 0 {
      var (second, s2) := EndRent(s1, rentId, latitude, longitude, user, now);
      assert s2.transports == s1.transports;
      assert s2.rents == s1.rents;
    }
  }

  /** A caller who is neither admin, renter nor owner can neither see nor
      end the rent. */
  lemma OutsiderIsRefused(s: Store, rentId: int, user: Principal, latitude: real, longitude: real, now: Instant)
    requires rentId in s.rents
    requires !user.isAdmin
    requires !IsRenter(user, s.rents[rentId])
    requires !OwnsTransportId(user, s.rents[rentId].transportId, s)
    ensures FindRent(s, rentId, user) == Err(ViewForbidden)
    ensures EndRent(s, rentId, latitude, longitude, user, now) == (Err(EndForbidden), s)
  {
  }

  /** The transport's owner may see a rent of it but, unless admin or
      renter, may not end it. */
  lemma OwnerMayViewButNotEnd(s: Store, rentId: int, user: Principal, latitude: real, longitude: real, now: Instant)
    requires rentId in s.rents
    requires OwnsTransportId(user, s.rents[rentId].transportId, s)
    requires !user.isAdmin && !IsRenter(user, s.rents[rentId])
    ensures FindRent(s, rentId, user) == Ok(s.rents[rentId])
    ensures EndRent(s, rentId, latitude, longitude, user, now) == (Err(EndForbidden), s)
  {
  }

  /** Viewing a rent does not depend on the admin flag. */
  lemma ViewIgnoresAdminFlag(s: Store, rentId: int, user: Principal)
    ensures FindRent(s, rentId, user) == FindRent(s, rentId, user.(isAdmin := !user.isAdmin))
  {
  }

  /** Ending a rent does depend on it: an admin ends any rent in time. */
  lemma AdminMayEndAnyRent(s: Store, rentId: int, user: Principal, latitude: real, longitude: real, now: Instant)
    requires rentId in s.rents && user.isAdmin
    requires now <= AsInstant(s.rents[rentId].endTime) && s.rents[rentId].transportId in s.transports
    ensures EndRent(s, rentId, latitude, longitude, user, now).0 == Ok(s.rents[rentId].(endTime := StoredSeconds(now)))
  {
  }

  /** The caller's history, read from a listing of the rent table, is
      exactly the stored rents booked for the caller. */
  lemma UserHistoryMatchesTable(rows: seq<Rent>, s: Store, user: Principal)
    requires RentRows(rows, s.rents)
    ensures forall x :: x in UserRentHistory(rows, user) <==> x.id in s.rents && s.rents[x.id] == x && x.renterId == user.id
  {
    ListsAreTable(rows, s.rents, (x: Rent) => x.id);
  }

  /** A successful transport history is exactly the stored rents of that
      transport. */
  lemma TransportHistoryMatchesTable(s: Store, rows: seq<Rent>, transportId: int, user: Principal)
    requires RentRows(rows, s.rents)
    requires TransportRentHistory(s, rows, transportId, user).Ok?
    ensures forall x :: x in TransportRentHistory(s, rows, transportId, user).value
              <==> x.id in s.rents && s.rents[x.id] == x && x.transportId == transportId
  {
    ListsAreTable(rows, s.rents, (x: Rent) => x.id);
  }
}

=== FILE: outcomes.dfy ===
/** Failure-carrying values for the rental backend.

    Every `HTTPException` the handlers raise becomes one `Error` value; its
    HTTP status is kept by `Error.Status`, so a caller can see e.g. that a
    rented transport is reported with status 404.
 */
module Outcomes {

  /** An optional value: a query parameter that may be absent. */
  datatype Option<+T> = None | Some(value: T)

  /** One constructor per distinct error the rental core raises. */
  datatype Error =
    | TransportNotFound        // "Transport not found"
    | TransportRented          // "Transport is rented"
    | OwnTransport             // "You cannot rent your own transport"
    | InvalidRentType          // "Invalid rent type"
    | RentalNotFound           // "Rental not found"
    | ViewForbidden            // no permission to view this rental
    | EndForbidden             // no permission to end this rental
    | RentalEnded              // "Rental has already ended"
    | ForeignTransportHistory  // "You cannot see someone else car"
    | EditForbidden            // no permission to change this transport
    | InvalidTransportType     // "Invalid transport type"
    | DuplicateIdentifier      // unique constraint on the identifier violated
    | RentUpdateFailed         // any exception inside the admin rent overwrite
    | ServerError              // an unhandled exception: nothing is committed
  {
    /** The HTTP status code the handler answers with. */
    function Status(): int
    {
      match this
      case TransportNotFound => 404
      case TransportRented => 404
      case OwnTransport => 400
      case InvalidRentType => 400
      case RentalNotFound => 404
      case ViewForbidden => 403
      case EndForbidden => 403
      case RentalEnded => 400
      case ForeignTransportHistory => 400
      case EditForbidden => 403
      case InvalidTransportType => 400
      case DuplicateIdentifier => 400
      case RentUpdateFailed => 400
      case ServerError => 500
    }
  }

  /** The outcome of one handler call: a value or the error it raised. */
  datatype Result<+T> = Ok(value: T) | Err(error: Error)
}

=== FILE: policy.dfy ===
/** Who may do what with a rent or a transport. Capabilities come from
    the caller's relation to the record (renter, owner) and, for ending a
    rent only, from the admin flag. */
module Policy {
  import opened Domain

  /** The caller is the rent's renter. */
  predicate IsRenter(user: Principal, rent: Rent) {
    user.id == rent.renterId
  }

  /** The ledger's ownership test: it looks the transport up by id, so a
      missing transport is owned by nobody. */
  predicate OwnsTransportId(user: Principal, transportId: int, s: Store) {
    transportId in s.transports && user.id == s.transports[transportId].ownerId
  }

  /** The catalog's ownership test on a transport already loaded. */
  predicate IsOwner(user: Principal, transport: Transport) {
    user.id == transport.ownerId
  }

  /** Ending a rent is open to admins and to the renter, not to the owner. */
  predicate CanEndRent(user: Principal, rent: Rent) {
    user.isAdmin || IsRenter(user, rent)
  }
}

=== FILE: pricing.dfy ===
/** The price and scheduled length of a new rent, from the transport's
    tariffs, the rent type and the requested duration. */
module Pricing {
  import opened Outcomes
  import opened Domain

  /** The billing unit a valid rent type names. */
  datatype Unit = PerMinute | PerDay

  /** What a new rent is charged and how long it is scheduled to last. */
  datatype Quote = Quote(priceOfUnit: real, finalPrice: real, length: int)

  function ParseRentType(rentType: string): (u: Option<Unit>)
    ensures u == Some(PerMinute) <==> rentType == Minutes
    ensures u == Some(PerDay) <==> rentType == Days
    ensures u.None? <==> !ValidRentType(rentType)
  {
    if rentType == Minutes then Some(PerMinute)
    else if rentType == Days then Some(PerDay)
    else None
  }

  function UnitPrice(t: Transport, u: Unit): real {
    match u
    case PerMinute => t.minutePrice
    case PerDay => t.dayPrice
  }

  /** Seconds in one billing unit. */
  function UnitLength(u: Unit): int {
    match u
    case PerMinute => SecondsPerMinute
    case PerDay => SecondsPerDay
  }

  /** The factor applied on top of unit price times duration; day rents
      are multiplied by 84, a constant the backend applies without
      stating its purpose. */
  function Multiplier(u: Unit): real {
    match u
    case PerMinute => 1.0
    case PerDay => 84.0
  }

  /** The quote for renting `t` for `duration` units of `rentType`.
      The duration is taken as given: it is not checked to be positive. */
  function QuoteRent(t: Transport, rentType: string, duration: int): (r: Result<Quote>)
    ensures r.Err? <==> !ValidRentType(rentType)
    ensures r.Err? ==> r.error == InvalidRentType
    ensures rentType == Minutes ==>
      r == Ok(Quote(t.minutePrice, t.minutePrice * duration as real, duration * SecondsPerMinute))
    ensures rentType == Days ==>
      r == Ok(Quote(t.dayPrice, t.dayPrice * duration as real * 84.0, duration * SecondsPerDay))
  {
    match ParseRentType(rentType)
    case None => Err(InvalidRentType)
    case Some(u) =>
      var unitPrice := UnitPrice(t, u);
      var q := Quote(unitPrice, unitPrice * duration as real * Multiplier(u), duration * UnitLength(u));
      assert rentType == Minutes ==> q == Quote(t.minutePrice, t.minutePrice * duration as real, duration * SecondsPerMinute);
      assert rentType == Days ==> q == Quote(t.dayPrice, t.dayPrice * duration as real * 84.0, duration * SecondsPerDay);
      Ok(q)
  }

  /** Splitting a rent into two consecutive rents of the same type costs
      the same and lasts as long: price and length are linear in the
      duration, at the same unit price. */
  lemma QuoteIsAdditive(t: Transport, rentType: string, d1: int, d2: int)
    requires ValidRentType(rentType)
    ensures var q1 := QuoteRent(t, rentType, d1).value;
            var q2 := QuoteRent(t, rentType, d2).value;
            var q := QuoteRent(t, rentType, d1 + d2).value;
            && q.priceOfUnit == q1.priceOfUnit == q2.priceOfUnit
            && q.finalPrice == q1.finalPrice + q2.finalPrice
            && q.length == q1.length + q2.length
  {
  }

  /** The worked examples: 10 per minute for 5 minutes costs 50; 100 per
      day for 2 days costs 100 * 2 * 84 = 16800; 2 per minute for 30
      minutes costs 60. */
  lemma QuoteExamples(t: Transport)
    ensures t.minutePrice == 10.0 ==> QuoteRent(t, Minutes, 5) == Ok(Quote(10.0, 50.0, 300))
    ensures t.dayPrice == 100.0 ==> QuoteRent(t, Days, 2) == Ok(Quote(100.0, 16800.0, 172800))
    ensures t.minutePrice == 2.0 ==> QuoteRent(t, Minutes, 30) == Ok(Quote(2.0, 60.0, 1800))
  {
  }
}

=== FILE: seqs.dfy ===
/** Order-preserving selection over table rows, the shape every
    `query.filter(...)` in the backend takes. */
module Seqs {

  /** The rows of `xs` that satisfy `keep`, in their original order. */
  function Filter<T(==,!new)>(xs: seq<T>, keep: T -> bool): (r: seq<T>)
    ensures |r| <= |xs|
    ensures forall x :: x in r <==> x in xs && keep(x)
    ensures forall i | 0 <= i < |r| :: keep(r[i])
  {
    if |xs| == 0 then []
    else
      assert forall x :: x in xs <==> x == xs[0] || x in xs[1..];
      (if keep(xs[0]) then [xs[0]] else []) + Filter(xs[1..], keep)
  }

  /** Two selections that agree on every row select the same rows. */
  lemma {:induction false} FilterExtensional<T(!new)>(xs: seq<T>, f: T -> bool, g: T -> bool)
    requires forall i | 0 <= i < |xs| :: f(xs[i]) == g(xs[i])
    ensures Filter(xs, f) == Filter(xs, g)
  {
    if |xs| > 0 {
      assert forall i | 0 <= i < |xs[1..]| :: xs[1..][i] == xs[i + 1];
      FilterExtensional(xs[1..], f, g);
    }
  }

  /** Filtering by `f` and then by `g` is filtering once by any `h` that
      holds exactly where both do. */
  lemma {:induction false} FilterThenFilter<T(!new)>(xs: seq<T>, f: T -> bool, g: T -> bool, h: T -> bool)
    requires forall i | 0 <= i < |xs| :: h(xs[i]) == (f(xs[i]) && g(xs[i]))
    ensures Filter(Filter(xs, f), g) == Filter(xs, h)
  {
    if |xs| > 0 {
      assert forall i | 0 <= i < |xs[1..]| :: xs[1..][i] == xs[i + 1];
      FilterThenFilter(xs[1..], f, g, h);
      var rest := Filter(xs[1..], f);
      if f(xs[0]) {
        assert Filter(xs, f) == [xs[0]] + rest;
        assert ([xs[0]] + rest)[1..] == rest;
      } else {
        assert Filter(xs, f) == rest;
      }
    }
  }

  /** A selection that keeps every row is the identity. */
  lemma {:induction false} FilterKeepsAll<T(!new)>(xs: seq<T>, keep: T -> bool)
    requires forall i | 0 <= i < |xs| :: keep(xs[i])
    ensures Filter(xs, keep) == xs
  {
    if |xs| > 0 {
      assert forall i | 0 <= i < |xs[1..]| :: xs[1..][i] == xs[i + 1];
      FilterKeepsAll(xs[1..], keep);
      assert [xs[0]] + xs[1..] == xs;
    }
  }
}
